=== FILE: README.md ===
# Verified model of the search widgets' string and state logic

The repository is a set of Lit web components: `json-analyzer` (a manifest
URL box), `hax-search` (a search over the haxtheweb.org site manifest),
`hax-card` (a site card that opens a page), and `nasa-search` (a search over
NASA's image API). Most of their code is markup and styling. This project
models the pure logic inside them as Dafny functions over `seq<char>` and
immutable state records, and proves what that logic does:

- **Manifest-URL normalisation** (`JsonAnalyzer`). The empty URL becomes
  `https://haxtheweb.org/site.json`. Any other URL not ending in `/site.json`
  gets that suffix appended. Nothing is stripped, so `x/` becomes
  `x//site.json`. Normalisation is idempotent, and the constructor default is
  a fixed point. `_updateUrl` stores text raw; only `render()` normalises it.
  `_analyze` sends a non-OK status down the same alert path as a failed fetch,
  while unparsable JSON is only logged.
- **hax-search** (`HaxSearch`). The filter keeps an item when the
  lower-cased query occurs in its lower-cased title or description. It keeps
  order and invents nothing. A root-relative `metadata.files[0].fullUrl` is
  prefixed with `https://haxtheweb.org`, and that fix-up is idempotent. An empty query clears the
  results without fetching. The fetch always goes to the hard-coded manifest
  URL: the `.jsonUrl` that `json-analyzer` sets is never read. The element
  renders a `<hax-item>` tag, while the card element registers itself as
  `hax-card`. The views here are therefore not fed into `HaxCard`.
- **hax-card** (`HaxCard`). An empty logo gives `lib/no-image.jpg`.
  Otherwise the logo is `baseURL + '/' + logo`, even when the logo is
  absolute. The navigation target is `baseURL + '/' + slug`, and
  only the `Enter` key opens it. Timestamps are integer seconds times 1000.
- **nasa-search** (`NasaSearch`). A non-empty query sets `loading` and
  requests the search URL with the query appended verbatim. A body with a
  `collection` replaces the items wholesale and clears `loading`. Any other
  outcome leaves the state alone, so `loading` stays `true`. Responses are not
  checked for staleness: the last collection to arrive wins.

Supporting modules: `Text` (`startsWith`, `endsWith`, `includes` with a
proof that the scan finds exactly the substring occurrences, ASCII
`toLowerCase`), `Numbers` (`parseInt` as the value of the leading digit run,
with a round trip against decimal rendering; `new Date(seconds * 1000)` as a
`DateLabel`), `Fetch` (how a fetch can settle: `Ok`, `NotOk`,
`NetworkError`, `BadJson`) and `Wrappers` (`Option`).

The Lit update cycle is modelled by `OnInput`: the input handler stores the
text, and `updated` then sees `value` as changed exactly when the new text
differs from the old one (Lit's `!==` check).

## Behaviour of the code worth knowing

- Trailing slashes are not stripped: the suffix is appended to the text as typed.
- Timestamps have no `N/A` marker. Without `metadata` a date cell is `''`; otherwise it shows a date or an invalid date.
- Neither search widget guards against stale responses: in `nasa-search` the last collection to arrive wins.
- `hax-search` fetches a hard-coded manifest and renders `<hax-item>`. It prefixes only root-relative logos. `hax-card` joins any non-empty logo onto its own `baseURL`.
- The filter alone matches everything on `""`. Only the guard in `updated` stops an empty query from reaching it.

## Model

| member | source | states |
|---|---|---|
| JsonAnalyzer.Init | json-analyzer.js:110-113 | the constructor's URL already ends in `/site.json` |
| JsonAnalyzer.Normalize | json-analyzer.js:115-117 | the result always ends in `/site.json`; a non-empty input is a prefix of it and at most the suffix is added; an input already ending in `/site.json` is returned unchanged |
| JsonAnalyzer.NormalizeIdempotent | json-analyzer.js:116-117 | normalising twice equals normalising once |
| JsonAnalyzer.NormalizeEmpty | json-analyzer.js:116 | the empty URL becomes exactly `https://haxtheweb.org/site.json` |
| JsonAnalyzer.NormalizeAppends | json-analyzer.js:117 | a non-empty URL without the suffix becomes URL + `/site.json`, its own text untouched |
| JsonAnalyzer.NormalizeKeepsTrailingSlash | json-analyzer.js:117 | no trailing-slash stripping: for every `x`, `x/` becomes `x//site.json` |
| JsonAnalyzer.DefaultIsFixedPoint | json-analyzer.js:112-117 | the constructor default is a fixed point of normalisation |
| JsonAnalyzer.Render | json-analyzer.js:115-136 | render rewrites `url` in place and binds the same normalised string as `.jsonUrl` on `hax-search` |
| JsonAnalyzer.RenderStable | json-analyzer.js:115-117 | a second render changes neither the state nor the bound URL |
| JsonAnalyzer.UpdateUrl | json-analyzer.js:140-142 | the typed text is stored verbatim |
| JsonAnalyzer.RawUntilRender | json-analyzer.js:115-142 | stored text may lack the suffix; the next render normalises it |
| JsonAnalyzer.Analyze | json-analyzer.js:144-160 | an alert happens iff the status is non-OK or the fetch failed, and its message starts with the fixed prefix; a JSON parse failure is only logged |
| JsonAnalyzer.NotOkIsFetchFailure | json-analyzer.js:146-158 | a non-OK status gives exactly the outcome of a failed fetch carrying `Error: Network response was not ok` |
| JsonAnalyzer.AlertNamesCause | json-analyzer.js:156-158 | the alert text after the prefix is the caught error's text |
| Text.Includes | hax-search.js:169-170 | the `includes` scan is true iff the needle occurs at some position of the haystack |
| Text.Lower | hax-search.js:169-170 | lower-casing keeps the length and lower-cases each character on its own, only `A`-`Z` changing |
| Text.LowerIdempotent | hax-search.js:169-170 | ASCII lower-casing leaves no upper-case letter and is idempotent |
| Numbers.ParseInt | hax-card.js:126 | `parseInt` yields a number iff the text starts with a digit |
| Numbers.DigitPrefix | hax-card.js:126 | on unsigned decimal text, `parseInt` reads exactly the leading run of digits and stops at the first non-digit |
| Numbers.ParseShow | hax-card.js:126 | `parseInt` of a decimal number below 2^53 gives back that number, when followed by nothing or by a non-digit that does not make a `0x` prefix |
| Numbers.DateFromSeconds | hax-card.js:126-127 | the date is valid iff the text parses and the seconds times 1000 stay within the `Date` range; a valid date is exactly the parsed seconds times 1000 |
| Numbers.DateOfShownSeconds | hax-card.js:126-127 | decimal seconds `n` give the date at `n * 1000` milliseconds, when followed by nothing or by non-digit text such as a fraction that does not make a `0x` prefix |
| Numbers.DateOfNonNumeric | hax-card.js:126 | empty text, or text starting with a letter, gives an invalid date |
| HaxSearch.Filter | hax-search.js:168-170 | an item is kept iff it is in the input and matches; the output is a subsequence of the input |
| HaxSearch.Logo | hax-search.js:130 | the logo is `metadata.files[0].fullUrl` exactly when `metadata`, `files` and a first entry all exist |
| HaxSearch.FilterAppend | hax-search.js:168-171 | filtering a concatenation is concatenating the filtered parts, so order is preserved |
| HaxSearch.FilterEmptyQueryKeepsAll | hax-search.js:168-170 | the filter alone keeps every item for the empty query |
| HaxSearch.Matches | hax-search.js:169-170 | an item matches iff the lower-cased query occurs in the lower-cased title or description |
| HaxSearch.MatchesIgnoresQueryCase | hax-search.js:169-170 | lower-casing the query first does not change the match |
| HaxSearch.MatchesExample | hax-search.js:169 | `ALP` matches an item titled `Alpha` |
| HaxSearch.AbsoluteLogo | hax-search.js:176-178 | a path starting with `/` becomes `https://haxtheweb.org` + path; any other value is unchanged; the result never starts with `/` |
| HaxSearch.FixLogo | hax-search.js:171-181 | an item without `metadata.files[0]` passes unchanged; otherwise only `files[0].fullUrl` is rewritten, and title, description, dates and later files are kept |
| HaxSearch.FixAll | hax-search.js:171-181 | the `map` step gives one fixed item per item, in order |
| HaxSearch.FixLogoIdempotent | hax-search.js:176-178 | applying the fix-up twice equals applying it once |
| HaxSearch.FilterFixCommute | hax-search.js:168-181 | fixing logos before or after filtering gives the same list |
| HaxSearch.Results | hax-search.js:168-181 | the shown items are exactly the fetched items with fixed logos, filtered in fetched order; each matches and has no root-relative logo, and every matching fetched item is shown, fixed |
| HaxSearch.Updated | hax-search.js:150-155 | a request is issued iff `value` changed and is non-empty, always to the hard-coded manifest URL, and only `loading` is set; a changed empty value clears the items and changes nothing else |
| HaxSearch.OnInput | hax-search.js:146-163 | typing stores the text and fetches iff it differs from the old value and is non-empty; a fetch sets only `loading` besides `value`, clearing the text empties only the items, and unchanged text changes nothing |
| HaxSearch.EmptyQueryClears | hax-search.js:153-154 | clearing the query empties the items and fetches nothing |
| HaxSearch.RequestIgnoresJsonUrl | hax-search.js:162-164 | the request does not depend on `jsonUrl`; its URL is always the hard-coded manifest |
| HaxSearch.Settle | hax-search.js:162-184 | a payload with an `items` array replaces the items with the fixed matches; a non-OK status or a bad payload keeps the items and clears `loading`; a failed fetch or parse changes nothing |
| HaxSearch.NotOkIsEmptyObject | hax-search.js:165-167 | a non-OK status behaves exactly like a body without `items` |
| HaxSearch.SettleReplacesWholesale | hax-search.js:167-168 | the new items do not depend on the previous items |
| HaxSearch.SearchRoundTrip | hax-search.js:150-184 | typing a new query and receiving items shows the fixed matches for that query, with `loading` cleared |
| HaxSearch.View | hax-search.js:126-139 | title and description pass through; without `metadata`, dates and logo are blank; otherwise the created cell reads `metadata.created` and the updated cell `metadata.updated`; the logo is `files[0].fullUrl` when present, else empty |
| HaxSearch.Render | hax-search.js:126-141 | one `<hax-item>` per item, in order |
| HaxSearch.ViewCreatedDate | hax-search.js:128 | decimal seconds in `metadata.created` show the date at that many thousand milliseconds |
| HaxSearch.Init | hax-search.js:98-104 | the constructor sets an empty value and title, `loading` false and no items |
| HaxSearch.InitialUpdateFetchesNothing | hax-search.js:98-104 | the element starts idle and its first update fetches nothing |
| HaxCard.Init | hax-card.js:7-16 | the constructor leaves every property empty except `slug` and `baseURL`, which are `google.com` |
| HaxCard.Join | hax-card.js:133 | joining is plain concatenation around `/`, and the path can be read back from the result |
| HaxCard.PathAfter | hax-card.js:171 | reading the path after `base + '/'` inverts the join |
| HaxCard.LogoUrl | hax-card.js:128-134 | an empty logo gives `lib/no-image.jpg`; otherwise the result is under `baseURL + '/'` and the logo is recovered from it |
| HaxCard.AbsoluteLogoStillJoined | hax-card.js:132-133 | an absolute logo is still prefixed with `baseURL + '/'`, so it is never used as it is |
| HaxCard.TargetUrl | hax-card.js:171 | the target is under `baseURL + '/'` and the slug is recovered from it |
| HaxCard.TargetInjective | hax-card.js:171 | under one base, different slugs give different targets |
| HaxCard.DefaultTarget | hax-card.js:7-16 | an unconfigured card targets `google.com/google.com` and shows the placeholder logo |
| HaxCard.OnKeyup | hax-card.js:175-179 | a key opens the target iff it is `Enter` |
| HaxCard.CreatedDate | hax-card.js:126 | the created cell is a valid date iff `created` parses and stays in range, and then shows the parsed seconds times 1000 |
| HaxCard.UpdatedDate | hax-card.js:127 | the updated cell is a valid date iff `lastUpdated` parses and stays in range, and then shows the parsed seconds times 1000 |
| HaxCard.DatesScaleSeconds | hax-card.js:126-127 | decimal seconds attributes show the dates at 1000 times those values |
| HaxCard.DefaultDatesInvalid | hax-card.js:11-12 | the constructor's empty timestamps show as an invalid date |
| NasaSearch.RequestUrl | nasa-search.js:159 | the request URL is the fixed search prefix followed by the query verbatim |
| NasaSearch.QueryOf | nasa-search.js:159 | the query can be read back from a request URL |
| NasaSearch.RequestUrlInjective | nasa-search.js:159 | different queries give different request URLs |
| NasaSearch.Updated | nasa-search.js:143-150 | a request is issued iff `value` changed and is truthy, with the query in the URL, and only `loading` is set; a changed falsy value clears the items and changes nothing else |
| NasaSearch.OnInput | nasa-search.js:139-158 | typing stores the text and searches iff it differs from the old value and is non-empty; a search sets only `loading` besides `value`, clearing the text empties only the items, and unchanged text changes nothing |
| NasaSearch.Settle | nasa-search.js:157-166 | a body with a `collection` replaces the items with its items and clears `loading`; anything else leaves the state unchanged |
| NasaSearch.SettleAll | nasa-search.js:157-166 | settling responses in order never sets `loading`; the items end up unchanged or equal to those of some collection that arrived |
| NasaSearch.LoadingSticksWithoutCollection | nasa-search.js:159-164 | responses without a collection, in any number, leave the state unchanged |
| NasaSearch.NotOkLeavesLoading | nasa-search.js:157-164 | a search answered by a non-OK status leaves `loading` true |
| NasaSearch.LastCollectionWins | nasa-search.js:157-166 | the shown items come from the last response that carried a collection, and `loading` is cleared |
| NasaSearch.Cards | nasa-search.js:127-134 | rendering succeeds iff every item has a first link and a first data entry; it gives one card per item, in order, with source, title, alt and creator from those entries |
| NasaSearch.Init | nasa-search.js:99-105 | the constructor sets `value` null, an empty title, `loading` false and no items |
| NasaSearch.InitialUpdateFetchesNothing | nasa-search.js:99-105 | the element starts with `value` null, not loading and no items, and its first update fetches nothing |

## Left out

- Styling, markup and the Lit update lifecycle beyond the `value` change check: presentation only.
- `fetch`, `response.json()`, `console.*` and `alert`: the network and the console are not modelled. A response is the `Fetch.Response` input, and the console or alert effect is the `JsonAnalyzer.Outcome` value.
- The full-screen gif, `setTimeout` and `window.open` in `openSlug`. Only the target string is modelled.
- `nasa-image.js`: it only passes `source` to `window.open`.
- `toLocaleDateString`: it depends on the locale. A valid date is kept as its epoch milliseconds.
- JsonAnalyzer.Analyzer: `url` is always a string. The `!this.url` test matters only when `url` is null or undefined, as after a parent removes the attribute. The element then renders `null/site.json`, and that path is not modelled.
- Numbers.ParseInt: leading whitespace, a sign and the `0x` prefix that JavaScript's `parseInt` accepts are not modelled. Timestamps are taken to be unsigned decimal text. A JSON number field is modelled by its decimal text.
- Text.Lower: only ASCII letters are lower-cased. Unicode case mapping is not modelled.
- HaxSearch.RawItem: `title` and `description` are always strings. In the source a missing `title` throws inside the callback. A missing `description` throws only when the title does not match, because `||` short-circuits. Then items stay unchanged and `loading` stays true. That path is not modelled.
- HaxSearch.FileRef: `fullUrl` is always a string. When `files[0]` has no string `fullUrl`, `fileUrl.startsWith` throws inside the callback. Items then stay unchanged and `loading` stays true. That path is not modelled.
- NasaSearch.Collection: `items` is always an array. A truthy `collection` without `items` sets the items to `undefined`, and `updated` and `render` then throw on it. That path is not modelled.
- NasaSearch.ImageData: the fields are always strings. How Lit renders an `undefined` attribute is not modelled.
- Concurrent requests: neither search widget rejects stale responses. Responses are modelled as settling in a given order (`NasaSearch.SettleAll`), not as racing.
- The `title` heading property of both search widgets is carried in the state but never changed by the modelled code.

=== FILE: fetch.dfy ===
/**
 * How a `fetch(...)` followed by `response.json()` can settle, seen from the
 * widgets. The network itself is not modelled: a response is an input.
 */
module Fetch {

  datatype Response<P> =
    | Ok(payload: P)              // 2xx status and a body that parsed as JSON
    | NotOk                       // a status outside 2xx; the body is never parsed
    | NetworkError(cause: string) // `fetch` rejected; `cause` is the error's string form
    | BadJson(cause: string)      // 2xx status but `response.json()` rejected
}

=== FILE: hax_card.dfy ===
/**
 * The `hax-card` element: a card that shows a site's logo and dates and, on
 * click or Enter, opens `baseURL + '/' + slug`. Only the strings it derives
 * are modelled; the interstitial animation and `window.open` are not.
 */
module HaxCard {
  import opened Wrappers
  import opened Text
  import opened Numbers

  /** Shown when the card has no logo. */
  const NoImage := "lib/no-image.jpg"

  /** The card's properties, all strings. */
  datatype Card = Card(
    title: string, description: string, created: string, lastUpdated: string,
    logo: string, slug: string, baseURL: string)

  /** The constructor: every text property empty except `slug` and `baseURL`. */
  function Init(): (c: Card)
    ensures c.title == "" && c.description == "" && c.logo == ""
    ensures c.created == "" && c.lastUpdated == ""
    ensures c.slug == "google.com" && c.baseURL == "google.com"
  {
    Card("", "", "", "", "", "google.com", "google.com")
  }

  /** `base + '/' + path`: plain concatenation, no URL resolution. */
  function Join(base: string, path: string): (r: string)
    ensures |r| == |base| + 1 + |path|
    ensures StartsWith(r, base + "/")
    ensures r[|base| + 1..] == path
  {
    var r := base + "/" + path;
    assert r[..|base| + 1] == base + "/";
    r
  }

  /** The part of a joined URL after `base + '/'`: the inverse of `Join`. */
  function PathAfter(base: string, url: string): (path: string)
    requires StartsWith(url, base + "/")
    ensures Join(base, path) == url
  {
    var path := url[|base| + 1..];
    assert url == url[..|base| + 1] + path;
    path
  }

  /** The image source: the placeholder for an empty logo, else the logo joined onto `baseURL`. */
  function LogoUrl(c: Card): (r: string)
    ensures c.logo == "" ==> r == NoImage
    ensures c.logo != "" ==> StartsWith(r, c.baseURL + "/") && PathAfter(c.baseURL, r) == c.logo
  {
    if c.logo == "" then NoImage else Join(c.baseURL, c.logo)
  }

  /** Even an absolute logo is joined onto `baseURL`, never used as it is. */
  lemma AbsoluteLogoStillJoined(c: Card)
    requires StartsWith(c.logo, "https://")
    ensures LogoUrl(c) == c.baseURL + "/" + c.logo
    ensures LogoUrl(c) != c.logo
  {
  }

  /** The page `openSlug` navigates to. */
  function TargetUrl(c: Card): (r: string)
    ensures StartsWith(r, c.baseURL + "/")
    ensures PathAfter(c.baseURL, r) == c.slug
  {
    Join(c.baseURL, c.slug)
  }

  /** Distinct slugs under one base always lead to distinct targets. */
  lemma TargetInjective(c: Card, d: Card)
    requires c.baseURL == d.baseURL && c.slug != d.slug
    ensures TargetUrl(c) != TargetUrl(d)
  {
  }

  /** An unconfigured card targets "google.com/google.com". */
  lemma DefaultTarget()
    ensures TargetUrl(Init()) == "google.com/google.com"
    ensures LogoUrl(Init()) == NoImage
  {
  }

  /** `onKeyup`: the target to open, or `None` when the key does nothing. */
  function OnKeyup(c: Card, key: string): (r: Option<string>)
    ensures r.Some? <==> key == "Enter"
    ensures r.Some? ==> r.value == TargetUrl(c)
  {
    if key == "Enter" then Some(TargetUrl(c)) else None
  }

  /** The two date cells: `created`/`lastUpdated` are Unix seconds, scaled to milliseconds. */
  function CreatedDate(c: Card): (d: DateLabel)
    ensures d != Blank
    ensures d.DateAt? <==> ParseInt(c.created).Some? && ParseInt(c.created).value * MillisPerSecond <= MaxEpochMillis
    ensures d.DateAt? ==> d.epochMillis == ParseInt(c.created).value * MillisPerSecond
  {
    DateFromSeconds(Some(c.created))
  }

  function UpdatedDate(c: Card): (d: DateLabel)
    ensures d != Blank
    ensures d.DateAt? <==> ParseInt(c.lastUpdated).Some? && ParseInt(c.lastUpdated).value * MillisPerSecond <= MaxEpochMillis
    ensures d.DateAt? ==> d.epochMillis == ParseInt(c.lastUpdated).value * MillisPerSecond
  {
    DateFromSeconds(Some(c.lastUpdated))
  }

  /** A decimal seconds attribute shows the day at a thousand times that many milliseconds. */
  lemma DatesScaleSeconds(c: Card, created: nat, updated: nat)
    requires c.created == ShowNat(created) && c.lastUpdated == ShowNat(updated)
    requires created * MillisPerSecond <= MaxEpochMillis && updated * MillisPerSecond <= MaxEpochMillis
    ensures CreatedDate(c) == DateAt(created * 1000)
    ensures UpdatedDate(c) == DateAt(updated * 1000)
  {
    DateOfShownSeconds(created, "");
    DateOfShownSeconds(updated, "");
    assert ShowNat(created) + "" == ShowNat(created);
    assert ShowNat(updated) + "" == ShowNat(updated);
  }

  /** The constructor's empty timestamps render as "Invalid Date". */
  lemma DefaultDatesInvalid()
    ensures CreatedDate(Init()) == InvalidDate && UpdatedDate(Init()) == InvalidDate
  {
  }
}

=== FILE: hax_search.dfy ===
/**
 * The `hax-search` element: a query box whose every non-empty value fetches
 * the haxtheweb.org manifest, keeps the items whose title or description
 * contains the query (ignoring ASCII case), makes their root-relative logo
 * paths absolute, and renders one `<hax-item>` per kept item.
 */
module HaxSearch {
  import opened Wrappers
  import opened Text
  import opened Numbers
  import opened Fetch

  /** The manifest fetched on every search, whatever `jsonUrl` a parent set. */
  const ManifestUrl := "https://haxtheweb.org/site.json"

  /** Prefixed onto logo paths that start with "/". */
  const SiteOrigin := "https://haxtheweb.org"

  datatype FileRef = FileRef(fullUrl: string)

  /** An item's `metadata`; `files` is `None` when absent, and its first entry is the logo. */
  datatype Metadata = Metadata(created: Option<string>, updated: Option<string>, files: Option<seq<FileRef>>)

  /** One entry of the manifest's `items` array. */
  datatype RawItem = RawItem(title: string, description: string, metadata: Option<Metadata>)

  /** The parsed body: `items` is `None` when the body is `null` or its `items` is not an array. */
  datatype Payload = Payload(items: Option<seq<RawItem>>)

  /**
   * The element's properties. `jsonUrl` is not a declared property: a parent
   * may set it, and nothing reads it.
   */
  datatype State = State(value: string, title: string, loading: bool, items: seq<RawItem>, jsonUrl: Option<string>)

  /** A `fetch` issued by `updateResults`, with the query its callback will filter by. */
  datatype Request = Request(url: string, query: string)

  /** The state after a reaction, and the request it issued, if any. */
  datatype Step = Step(state: State, request: Option<Request>)

  /** The attributes of one rendered `<hax-item>`. */
  datatype ItemView = ItemView(created: DateLabel, lastUpdated: DateLabel, title: string, description: string, logo: string)

  /** The constructor: empty query and title, not loading, no items, no `jsonUrl`. */
  function Init(): (s: State)
    ensures s.value == "" && s.title == "" && !s.loading && s.items == [] && s.jsonUrl.None?
  {
    State("", "", false, [], None)
  }

  /** The item's logo, `metadata.files[0].fullUrl`, when that entry exists. */
  function Logo(item: RawItem): (r: Option<string>)
    ensures r.Some? <==> item.metadata.Some? && item.metadata.value.files.Some? && |item.metadata.value.files.value| > 0
    ensures r.Some? ==> r.value == item.metadata.value.files.value[0].fullUrl
  {
    if item.metadata.Some? && item.metadata.value.files.Some? && |item.metadata.value.files.value| > 0
    then Some(item.metadata.value.files.value[0].fullUrl)
    else None
  }

  /**
   * The filter predicate: the lower-cased query occurs in the lower-cased
   * title or in the lower-cased description.
   */
  function Matches(item: RawItem, query: string): (r: bool)
    ensures r <==> Occurs(Lower(item.title), Lower(query)) || Occurs(Lower(item.description), Lower(query))
  {
    Includes(Lower(item.title), Lower(query)) || Includes(Lower(item.description), Lower(query))
  }

  ghost predicate IsSubsequence<T>(a: seq<T>, b: seq<T>)
    decreases |b|
  {
    if a == [] then true
    else if b == [] then false
    else (a[0] == b[0] && IsSubsequence(a[1..], b[1..])) || IsSubsequence(a, b[1..])
  }

  /** `items.filter(...)`: the matching items, in their original order. */
  function Filter(items: seq<RawItem>, query: string): (r: seq<RawItem>)
    ensures |r| <= |items|
    ensures forall x :: x in r <==> x in items && Matches(x, query)
    ensures IsSubsequence(r, items)
  {
    if items == [] then []
    else if Matches(items[0], query) then
      var rest := Filter(items[1..], query);
      assert ([items[0]] + rest)[1..] == rest;
      [items[0]] + rest
    else Filter(items[1..], query)
  }

  /** Filtering distributes over concatenation, which is what preserving order means. */
  lemma {:induction false} FilterAppend(a: seq<RawItem>, b: seq<RawItem>, query: string)
    ensures Filter(a + b, query) == Filter(a, query) + Filter(b, query)
  {
    if a == [] {
      assert a + b == b;
    } else {
      assert (a + b)[0] == a[0];
      assert (a + b)[1..] == a[1..] + b;
      FilterAppend(a[1..], b, query);
    }
  }

  /**
   * With the empty query the filter would keep every item; only the guard in
   * `updated` stops an empty query from reaching it.
   */
  lemma {:induction false} FilterEmptyQueryKeepsAll(items: seq<RawItem>)
    ensures Filter(items, "") == items
  {
    if items != [] {
      IncludesEmpty(Lower(items[0].title));
      FilterEmptyQueryKeepsAll(items[1..]);
    }
  }

  /** Upper-case letters in the query make no difference. */
  lemma MatchesIgnoresQueryCase(item: RawItem, query: string)
    ensures Matches(item, query) == Matches(item, Lower(query))
  {
    LowerIdempotent(query);
  }

  /** The rewrite of one logo path: root-relative paths get the site origin. */
  function AbsoluteLogo(url: string): (r: string)
    ensures !StartsWith(r, "/")
    ensures StartsWith(url, "/") ==> StartsWith(r, SiteOrigin) && r[|SiteOrigin|..] == url
    ensures !StartsWith(url, "/") ==> r == url
  {
    if StartsWith(url, "/") then
      var r := SiteOrigin + url;
      assert r[..1] == "h";
      assert r[..|SiteOrigin|] == SiteOrigin;
      r
    else url
  }

  /**
   * The `.map(...)` step: when `metadata.files[0]` exists its `fullUrl` is
   * made absolute; every other part of the item is left as it was.
   */
  function FixLogo(item: RawItem): (r: RawItem)
    ensures r.title == item.title && r.description == item.description
    ensures Logo(item).None? ==> r == item
    ensures Logo(item).Some? ==> Logo(r) == Some(AbsoluteLogo(Logo(item).value))
    ensures r.metadata.Some? <==> item.metadata.Some?
    ensures r.metadata.Some? ==> r.metadata.value.created == item.metadata.value.created
                                 && r.metadata.value.updated == item.metadata.value.updated
    ensures Logo(item).Some? ==> r.metadata.value.files.value[1..] == item.metadata.value.files.value[1..]
  {
    match Logo(item)
    case None => item
    case Some(url) =>
      var m := item.metadata.value;
      var files := m.files.value;
      var fixed := [FileRef(AbsoluteLogo(url))] + files[1..];
      assert fixed[1..] == files[1..];
      item.(metadata := Some(m.(files := Some(fixed))))
  }

  /** Fixing a logo that was already fixed changes nothing. */
  lemma FixLogoIdempotent(item: RawItem)
    ensures FixLogo(FixLogo(item)) == FixLogo(item)
  {
  }

  function FixAll(items: seq<RawItem>): (r: seq<RawItem>)
    ensures |r| == |items|
    ensures forall i :: 0 <= i < |items| ==> r[i] == FixLogo(items[i])
  {
    seq(|items|, i requires 0 <= i < |items| => FixLogo(items[i]))
  }

  /** Fixing logos does not change which items match, so the two steps commute. */
  lemma {:induction false} FilterFixCommute(items: seq<RawItem>, query: string)
    ensures Filter(FixAll(items), query) == FixAll(Filter(items, query))
  {
    if items != [] {
      assert FixAll(items)[1..] == FixAll(items[1..]);
      FilterFixCommute(items[1..], query);
      if Matches(items[0], query) {
        assert FixAll([items[0]] + Filter(items[1..], query))
            == [FixLogo(items[0])] + FixAll(Filter(items[1..], query));
      }
    }
  }

  /** Every fixed item comes from an input item, and no fixed logo is root-relative. */
  lemma FixAllMembers(items: seq<RawItem>)
    ensures forall x :: x in FixAll(items) ==> Logo(x).None? || !StartsWith(Logo(x).value, "/")
    ensures forall x :: x in items ==> FixLogo(x) in FixAll(items)
  {
    forall x | x in items
      ensures FixLogo(x) in FixAll(items)
    {
      var i :| 0 <= i < |items| && items[i] == x;
      assert FixAll(items)[i] == FixLogo(x);
    }
  }

  /**
   * The items shown for a fetched array: the matches, in fetched order, with
   * their logos fixed (`filter` then `map` at hax-search.js:168-181).
   */
  function Results(fetched: seq<RawItem>, query: string): (r: seq<RawItem>)
    ensures r == Filter(FixAll(fetched), query)
    ensures |r| <= |fetched|
    ensures forall x :: x in r ==> Matches(x, query)
    ensures forall x :: x in r ==> Logo(x).None? || !StartsWith(Logo(x).value, "/")
    ensures forall x :: x in fetched && Matches(x, query) ==> FixLogo(x) in r
  {
    FilterFixCommute(fetched, query);
    FixAllMembers(fetched);
    FixAll(Filter(fetched, query))
  }

  /**
   * `updated(changedProperties)` as far as `value` goes: a changed non-empty
   * value starts `updateResults` (loading, one request for the fixed
   * manifest); a changed empty value clears the items and fetches nothing.
   */
  function Updated(s: State, valueChanged: bool): (r: Step)
    ensures r.request.Some? <==> valueChanged && s.value != ""
    ensures r.request.Some? ==> r.request.value == Request(ManifestUrl, s.value) && r.state.loading
    ensures valueChanged && s.value == "" ==> r.state.items == []
    ensures r.request.Some? ==> r.state == s.(loading := true)
    ensures valueChanged && s.value == "" ==> r.state == s.(items := [])
    ensures r.state.value == s.value && r.state.jsonUrl == s.jsonUrl
    ensures !valueChanged ==> r.state == s
    ensures r.request.None? ==> r.state.loading == s.loading
  {
    if valueChanged && s.value != "" then Step(s.(loading := true), Some(Request(ManifestUrl, s.value)))
    else if valueChanged then Step(s.(items := []), None)
    else Step(s, None)
  }

  /**
   * `inputChanged` followed by the update it triggers: the property system
   * reports `value` as changed exactly when the new text differs.
   */
  function OnInput(s: State, typed: string): (r: Step)
    ensures r.state.value == typed
    ensures r.request.Some? <==> typed != s.value && typed != ""
    ensures r.request.Some? ==> r.state == s.(value := typed, loading := true)
    ensures typed != s.value && typed == "" ==> r.state == s.(value := typed, items := [])
    ensures typed == s.value ==> r.state == s && r.request.None?
  {
    Updated(s.(value := typed), typed != s.value)
  }

  /** An empty query clears the results and never fetches. */
  lemma EmptyQueryClears(s: State)
    requires s.value != ""
    ensures OnInput(s, "").request.None?
    ensures OnInput(s, "").state.items == []
  {
  }

  /** The request never depends on `jsonUrl`: the fetched URL is hard-coded. */
  lemma RequestIgnoresJsonUrl(s: State, typed: string, jsonUrl: Option<string>)
    ensures OnInput(s.(jsonUrl := jsonUrl), typed).request == OnInput(s, typed).request
    ensures OnInput(s, typed).request.Some? ==> OnInput(s, typed).request.value.url == ManifestUrl
  {
  }

  /**
   * The callback of `updateResults(query)`. A non-OK status resolves to `{}`,
   * so it behaves like a payload without items. A rejected fetch or body parse
   * has no handler: the callback never runs and `loading` stays as it was.
   */
  function Settle(s: State, query: string, response: Response<Payload>): (r: State)
    ensures r.value == s.value && r.title == s.title && r.jsonUrl == s.jsonUrl
    ensures response.NetworkError? || response.BadJson? ==> r == s
    ensures response.Ok? || response.NotOk? ==> !r.loading
    ensures response.Ok? && response.payload.items.Some? ==> r.items == Results(response.payload.items.value, query)
    ensures !(response.Ok? && response.payload.items.Some?) ==> r.items == s.items
  {
    match response
    case Ok(Payload(Some(fetched))) => s.(items := Results(fetched, query), loading := false)
    case Ok(Payload(None)) => s.(loading := false)
    case NotOk => s.(loading := false)
    case NetworkError(_) => s
    case BadJson(_) => s
  }

  /** A non-OK status takes the same path as a body without an `items` array. */
  lemma NotOkIsEmptyObject(s: State, query: string)
    ensures Settle(s, query, NotOk) == Settle(s, query, Ok(Payload(None)))
  {
  }

  /** Fetched items replace the old ones wholesale: the previous items have no influence. */
  lemma SettleReplacesWholesale(s1: State, s2: State, query: string, fetched: seq<RawItem>)
    ensures Settle(s1, query, Ok(Payload(Some(fetched)))).items == Settle(s2, query, Ok(Payload(Some(fetched)))).items
  {
  }

  /** A search followed by its response: the shown items are the fixed matches of the fetched array. */
  lemma SearchRoundTrip(s: State, typed: string, fetched: seq<RawItem>)
    requires typed != s.value && typed != ""
    ensures var step := OnInput(s, typed);
            var done := Settle(step.state, step.request.value.query, Ok(Payload(Some(fetched))));
            done.items == FixAll(Filter(fetched, typed)) && !done.loading && done.value == typed
  {
  }

  /** The attributes `render()` gives the `<hax-item>` of one item. */
  function View(item: RawItem): (v: ItemView)
    ensures v.title == item.title && v.description == item.description
    ensures item.metadata.None? ==> v.created == Blank && v.lastUpdated == Blank && v.logo == ""
    ensures item.metadata.Some? ==> v.created != Blank && v.lastUpdated != Blank
    ensures item.metadata.Some? ==> v.created == DateFromSeconds(item.metadata.value.created)
                                    && v.lastUpdated == DateFromSeconds(item.metadata.value.updated)
    ensures v.logo == Logo(item).GetOr("")
  {
    match item.metadata
    case None => ItemView(Blank, Blank, item.title, item.description, "")
    case Some(m) =>
      ItemView(DateFromSeconds(m.created), DateFromSeconds(m.updated), item.title, item.description, Logo(item).GetOr(""))
  }

  /** One `<hax-item>` per item, in order. */
  function Render(s: State): (r: seq<ItemView>)
    ensures |r| == |s.items|
    ensures forall i :: 0 <= i < |r| ==> r[i] == View(s.items[i])
  {
    seq(|s.items|, i requires 0 <= i < |s.items| => View(s.items[i]))
  }

  /** A shown item whose `metadata.created` is decimal seconds gets that date. */
  lemma ViewCreatedDate(item: RawItem, seconds: nat)
    requires item.metadata.Some? && item.metadata.value.created == Some(ShowNat(seconds))
    requires seconds * MillisPerSecond <= MaxEpochMillis
    ensures View(item).created == DateAt(seconds * MillisPerSecond)
  {
    DateOfShownSeconds(seconds, "");
    assert ShowNat(seconds) + "" == ShowNat(seconds);
  }

  /** The element starts idle; its first update sees an empty value and fetches nothing. */
  lemma InitialUpdateFetchesNothing()
    ensures !Init().loading && Init().items == []
    ensures Updated(Init(), true).request.None? && Updated(Init(), true).state == Init()
  {
  }

  /** For example, the query "ALP" finds the title "Alpha", whatever the case. */
  lemma MatchesExample()
    ensures Matches(RawItem("Alpha", "beta", None), "ALP")
  {
  }
}

=== FILE: json_analyzer.dfy ===
/**
 * The `json-analyzer` element: it keeps a manifest URL typed by the user,
 * normalises it to end in "/site.json" every time it renders, hands it to a
 * `hax-search` child, and on "Analyze" fetches it and reports the outcome.
 */
module JsonAnalyzer {
  import opened Text
  import opened Fetch

  const DefaultUrl := "https://haxtheweb.org/site.json"
  const ManifestSuffix := "/site.json"

  /** The element's only state: its `url` property. */
  datatype Analyzer = Analyzer(url: string)

  /** What one `render()` leaves behind: the rewritten state and the `.jsonUrl` bound on `<hax-search>`. */
  datatype Rendered = Rendered(state: Analyzer, jsonUrl: string)

  /** What `_analyze` does once the fetch settles. */
  datatype Outcome<P> =
    | LoggedPayload(payload: P)  // console.log(data)
    | LoggedParseError           // console.error only; no alert
    | Alerted(message: string)   // console.error and alert(message)

  const AlertPrefix := "Error fetching JSON\n"

  /** `String(new Error('Network response was not ok'))`. */
  const NotOkError := "Error: Network response was not ok"

  function Init(): (a: Analyzer)
    ensures EndsWith(a.url, ManifestSuffix)
  {
    Analyzer(DefaultUrl)
  }

  /**
   * The rewrite `render()` applies to `url`: the empty string becomes the
   * default manifest, anything else not already ending in "/site.json" gets
   * it appended. Nothing is stripped, not even a trailing slash.
   */
  function Normalize(url: string): (r: string)
    ensures EndsWith(r, ManifestSuffix)
    ensures url != "" ==> StartsWith(r, url) && |r| <= |url| + |ManifestSuffix|
    ensures EndsWith(url, ManifestSuffix) ==> r == url
  {
    if url == "" then DefaultUrl
    else if !EndsWith(url, ManifestSuffix) then
      EndsWithAppend(url, ManifestSuffix);
      StartsWithAppend(url, ManifestSuffix);
      url + ManifestSuffix
    else url
  }

  /** Normalising twice is normalising once. */
  lemma NormalizeIdempotent(url: string)
    ensures Normalize(Normalize(url)) == Normalize(url)
  {
  }

  /** The empty input yields exactly the default manifest URL. */
  lemma NormalizeEmpty()
    ensures Normalize("") == DefaultUrl
  {
  }

  /** A non-empty input lacking the suffix gains exactly the suffix, nothing else. */
  lemma NormalizeAppends(url: string)
    requires url != "" && !EndsWith(url, ManifestSuffix)
    ensures Normalize(url) == url + ManifestSuffix
    ensures Normalize(url)[..|url|] == url
  {
  }

  /** A trailing slash is kept, so "x/" becomes "x//site.json". */
  lemma NormalizeKeepsTrailingSlash(url: string)
    ensures Normalize(url + "/") == url + "//site.json"
  {
    var u := url + "/";
    assert !EndsWith(u, ManifestSuffix) by {
      if |ManifestSuffix| <= |u| {
        assert u[|u| - 1] == '/';
        assert ManifestSuffix[|ManifestSuffix| - 1] == 'n';
        assert u[|u| - |ManifestSuffix|..][|ManifestSuffix| - 1] == u[|u| - 1];
      }
    }
    assert u + ManifestSuffix == url + "//site.json";
  }

  /** The constructor's URL survives rendering untouched. */
  lemma DefaultIsFixedPoint()
    ensures Normalize(Init().url) == Init().url
  {
  }

  /** `render()`: normalise `url` in place and bind it as `.jsonUrl`. */
  function Render(a: Analyzer): (r: Rendered)
    ensures r.jsonUrl == r.state.url
    ensures EndsWith(r.jsonUrl, ManifestSuffix)
    ensures a.url != "" ==> StartsWith(r.jsonUrl, a.url)
  {
    var url := Normalize(a.url);
    Rendered(Analyzer(url), url)
  }

  /** A second render changes nothing, so re-rendering never grows the URL. */
  lemma RenderStable(a: Analyzer)
    ensures Render(Render(a).state) == Render(a)
  {
  }

  /** `_updateUrl`: the typed text is stored as it is. */
  function UpdateUrl(a: Analyzer, typed: string): (r: Analyzer)
    ensures r.url == typed
  {
    a.(url := typed)
  }

  /**
   * Typed text is stored raw and only normalised by the following render:
   * the stored URL can lack the suffix, the rendered one never does.
   */
  lemma RawUntilRender(a: Analyzer, typed: string)
    ensures UpdateUrl(a, typed).url == typed
    ensures Render(UpdateUrl(a, typed)).jsonUrl == Normalize(typed)
    ensures typed != "" && !EndsWith(typed, ManifestSuffix) ==> UpdateUrl(a, typed) != Render(UpdateUrl(a, typed)).state
  {
  }

  /**
   * `_analyze` after `fetch(url)` settles: a non-OK status is thrown as an
   * Error and caught by the same handler as a failed fetch; a body that is
   * not JSON is caught by the inner handler and only logged.
   */
  function Analyze<P>(response: Response<P>): (r: Outcome<P>)
    ensures r.Alerted? <==> response.NotOk? || response.NetworkError?
    ensures r.Alerted? ==> StartsWith(r.message, AlertPrefix)
    ensures r == LoggedParseError <==> response.BadJson?
  {
    StartsWithAppend(AlertPrefix, NotOkError);
    match response
    case Ok(data) => LoggedPayload(data)
    case NotOk => Alerted(AlertPrefix + NotOkError)
    case NetworkError(cause) =>
      StartsWithAppend(AlertPrefix, cause);
      Alerted(AlertPrefix + cause)
    case BadJson(_) => LoggedParseError
  }

  /** A non-OK status is indistinguishable from a transport failure carrying the thrown Error. */
  lemma NotOkIsFetchFailure<P>()
    ensures Analyze<P>(NotOk) == Analyze<P>(NetworkError(NotOkError))
  {
  }

  /** The alert message carries the caught error's text after the fixed prefix. */
  lemma AlertNamesCause<P>(cause: string)
    ensures Analyze<P>(NetworkError(cause)).message[|AlertPrefix|..] == cause
  {
  }
}

=== FILE: nasa_search.dfy ===
/**
 * The `nasa-search` element: every non-empty query asks NASA's image API
 * for matches and shows one `<nasa-image>` per returned item. A response
 * without a `collection` is ignored, so `loading` then stays set.
 */
module NasaSearch {
  import opened Wrappers
  import opened Text
  import opened Fetch

  /** The search endpoint; the query is appended verbatim, without encoding. */
  const SearchPrefix := "https://images-api.nasa.gov/search?media_type=image&q="

  datatype Link = Link(href: string)
  datatype ImageData = ImageData(title: string, description: string, secondaryCreator: string)

  /** One entry of `collection.items`. */
  datatype ImageItem = ImageItem(links: seq<Link>, data: seq<ImageData>)

  datatype Collection = Collection(items: seq<ImageItem>)

  /**
   * The parsed body, reduced to its `collection`. `None` covers a body
   * without one and a `null` body, whose `.collection` throws inside the
   * callback; both leave the state alone.
   */
  type Payload = Option<Collection>

  /** The element's properties; `value` starts as `null`. */
  datatype State = State(value: Option<string>, title: string, loading: bool, items: seq<ImageItem>)

  datatype Request = Request(url: string)

  datatype Step = Step(state: State, request: Option<Request>)

  /** The attributes of one rendered `<nasa-image>`. */
  datatype ImageCard = ImageCard(source: string, title: string, alt: string, secondaryCreator: string)

  /** The constructor: `value` null, empty title, not loading, no items. */
  function Init(): (s: State)
    ensures s.value.None? && s.title == "" && !s.loading && s.items == []
  {
    State(None, "", false, [])
  }

  /** JavaScript truthiness of `value`: `null` and `''` are falsy. */
  predicate Truthy(value: Option<string>) {
    value.Some? && value.value != ""
  }

  function RequestUrl(query: string): (url: string)
    ensures StartsWith(url, SearchPrefix)
    ensures url[|SearchPrefix|..] == query
  {
    StartsWithAppend(SearchPrefix, query);
    SearchPrefix + query
  }

  /** The query a search URL carries: the inverse of `RequestUrl`. */
  function QueryOf(url: string): (query: string)
    requires StartsWith(url, SearchPrefix)
    ensures RequestUrl(query) == url
  {
    var query := url[|SearchPrefix|..];
    assert url == url[..|SearchPrefix|] + query;
    query
  }

  /** Different queries always produce different request URLs. */
  lemma RequestUrlInjective(q1: string, q2: string)
    requires RequestUrl(q1) == RequestUrl(q2)
    ensures q1 == q2
  {
  }

  /**
   * `updated(changedProperties)` as far as `value` goes: a changed truthy
   * value sets `loading` and issues the search; a changed falsy value clears
   * the items and issues nothing.
   */
  function Updated(s: State, valueChanged: bool): (r: Step)
    ensures r.request.Some? <==> valueChanged && Truthy(s.value)
    ensures r.request.Some? ==> r.state.loading && StartsWith(r.request.value.url, SearchPrefix)
                                && r.request.value.url[|SearchPrefix|..] == s.value.value
    ensures valueChanged && !Truthy(s.value) ==> r.state.items == []
    ensures r.request.Some? ==> r.state == s.(loading := true)
    ensures valueChanged && !Truthy(s.value) ==> r.state == s.(items := [])
    ensures r.request.None? ==> r.state.loading == s.loading
    ensures !valueChanged ==> r.state == s
    ensures r.state.value == s.value
  {
    if valueChanged && Truthy(s.value) then Step(s.(loading := true), Some(Request(RequestUrl(s.value.value))))
    else if valueChanged then Step(s.(items := []), None)
    else Step(s, None)
  }

  /** `inputChanged` and the update it triggers; the input always yields a string. */
  function OnInput(s: State, typed: string): (r: Step)
    ensures r.state.value == Some(typed)
    ensures r.request.Some? <==> Some(typed) != s.value && typed != ""
    ensures r.request.Some? ==> r.state == s.(value := Some(typed), loading := true)
    ensures Some(typed) != s.value && typed == "" ==> r.state == s.(value := Some(typed), items := [])
    ensures Some(typed) == s.value ==> r.state == s && r.request.None?
  {
    Updated(s.(value := Some(typed)), Some(typed) != s.value)
  }

  /** The callback of `updateResults`: only a payload with a `collection` has any effect. */
  function Settle(s: State, response: Response<Payload>): (r: State)
    ensures r.value == s.value && r.title == s.title
    ensures !(response.Ok? && response.payload.Some?) ==> r == s
    ensures response.Ok? && response.payload.Some? ==> r.items == response.payload.value.items && !r.loading
  {
    match response
    case Ok(Some(c)) => s.(items := c.items, loading := false)
    case _ => s
  }

  predicate CarriesCollection(response: Response<Payload>) {
    response.Ok? && response.payload.Some?
  }

  /**
   * Responses settling one after another, in arrival order. Settling never
   * sets `loading`, and the items end up either as they were or as the items
   * of one of the collections that arrived.
   */
  function SettleAll(s: State, responses: seq<Response<Payload>>): (r: State)
    ensures r.value == s.value && r.title == s.title
    ensures r.loading ==> s.loading
    ensures r.items == s.items
            || exists i :: 0 <= i < |responses| && CarriesCollection(responses[i])
                           && r.items == responses[i].payload.value.items
    decreases |responses|
  {
    if responses == [] then s
    else
      assert forall i :: 0 <= i < |responses| - 1 ==> responses[1..][i] == responses[i + 1];
      SettleAll(Settle(s, responses[0]), responses[1..])
  }

  /**
   * A search answered by non-OK statuses, failures or collection-less bodies
   * stays loading for ever: nothing but a collection clears the flag.
   */
  lemma {:induction false} LoadingSticksWithoutCollection(s: State, responses: seq<Response<Payload>>)
    requires forall i :: 0 <= i < |responses| ==> !CarriesCollection(responses[i])
    ensures SettleAll(s, responses) == s
    decreases |responses|
  {
    if responses != [] {
      LoadingSticksWithoutCollection(Settle(s, responses[0]), responses[1..]);
    }
  }

  /** A non-empty query answered by a non-OK status leaves `loading` stuck at true. */
  lemma NotOkLeavesLoading(s: State, typed: string)
    requires Some(typed) != s.value && typed != ""
    ensures Settle(OnInput(s, typed).state, NotOk).loading
  {
  }

  /**
   * There is no guard against stale responses: the items shown are those of
   * the last collection to arrive, whichever query it answered.
   */
  lemma {:induction false} LastCollectionWins(s: State, responses: seq<Response<Payload>>, k: nat)
    requires k < |responses| && CarriesCollection(responses[k])
    requires forall j :: k < j < |responses| ==> !CarriesCollection(responses[j])
    ensures SettleAll(s, responses).items == responses[k].payload.value.items
    ensures !SettleAll(s, responses).loading
    decreases |responses|
  {
    if k == 0 {
      LoadingSticksWithoutCollection(Settle(s, responses[0]), responses[1..]);
    } else {
      LastCollectionWins(Settle(s, responses[0]), responses[1..], k - 1);
    }
  }

  /** `item.links[0]` and `item.data[0]` exist; without them `render()` throws. */
  predicate Renderable(item: ImageItem) {
    |item.links| > 0 && |item.data| > 0
  }

  /**
   * `render()`'s `items.map(...)`: one card per item, in order, or `None`
   * when some item lacks the first link or data entry.
   */
  function Cards(items: seq<ImageItem>): (r: Option<seq<ImageCard>>)
    ensures r.Some? <==> forall i :: 0 <= i < |items| ==> Renderable(items[i])
    ensures r.Some? ==> |r.value| == |items|
    ensures r.Some? ==> forall i :: 0 <= i < |items| ==>
              && r.value[i].source == items[i].links[0].href
              && r.value[i].title == items[i].data[0].title
              && r.value[i].alt == items[i].data[0].description
              && r.value[i].secondaryCreator == items[i].data[0].secondaryCreator
  {
    if items == [] then Some([])
    else if !Renderable(items[0]) then None
    else
      match Cards(items[1..])
      case None => None
      case Some(rest) =>
        var d := items[0].data[0];
        Some([ImageCard(items[0].links[0].href, d.title, d.description, d.secondaryCreator)] + rest)
  }

  /** The element starts idle with `value` null; its first update fetches nothing. */
  lemma InitialUpdateFetchesNothing()
    ensures Init().value.None? && !Init().loading && Init().items == []
    ensures Updated(Init(), true).request.None? && Updated(Init(), true).state == Init()
  {
  }
}

=== FILE: numbers.dfy ===
/**
 * `parseInt` on timestamp text, the seconds-to-milliseconds scaling the
 * widgets apply before `new Date(...)`, and the decimal rendering that
 * `parseInt` inverts.
 */
module Numbers {
  import opened Wrappers
  import opened Text

  predicate IsDigit(c: char) {
    '0' <= c <= '9'
  }

  predicate AllDigits(s: string) {
    forall i :: 0 <= i < |s| ==> IsDigit(s[i])
  }

  /** The longest prefix of `s` made only of decimal digits. */
  function DigitPrefix(s: string): (r: string)
    ensures StartsWith(s, r) && AllDigits(r)
    ensures |r| < |s| ==> !IsDigit(s[|r|])
  {
    if s != [] && IsDigit(s[0]) then [s[0]] + DigitPrefix(s[1..]) else []
  }

  /** The number a string of decimal digits denotes, most significant first. */
  function DigitsValue(d: string): nat
    requires AllDigits(d)
  {
    if d == [] then 0 else 10 * DigitsValue(d[..|d| - 1]) + (d[|d| - 1] as int - '0' as int)
  }

  /**
   * `parseInt(s)` without a radix, on text that starts with its digits: the
   * value of the leading run of decimal digits, or `None` (NaN) when there
   * is none.
   */
  function ParseInt(s: string): (r: Option<nat>)
    ensures r.Some? <==> s != [] && IsDigit(s[0])
  {
    var d := DigitPrefix(s);
    if d == [] then None else Some(DigitsValue(d))
  }

  function DigitChar(k: nat): char
    requires k < 10
  {
    ('0' as int + k) as char
  }

  /** The decimal text of `n`, as `String(n)` writes it for `n` below 10^21. */
  function ShowNat(n: nat): (r: string)
    ensures r != [] && AllDigits(r)
  {
    if n < 10 then [DigitChar(n)] else ShowNat(n / 10) + [DigitChar(n % 10)]
  }

  lemma {:induction false} ShowNatValue(n: nat)
    ensures DigitsValue(ShowNat(n)) == n
  {
    if n >= 10 {
      ShowNatValue(n / 10);
      var s := ShowNat(n);
      assert s[..|s| - 1] == ShowNat(n / 10);
    }
  }

  /** Digits followed by anything that is not a digit parse to the digits alone. */
  lemma {:induction false} DigitPrefixOfDigits(d: string, rest: string)
    requires AllDigits(d)
    requires rest == [] || !IsDigit(rest[0])
    ensures DigitPrefix(d + rest) == d
  {
    if d != [] {
      assert (d + rest)[1..] == d[1..] + rest;
      DigitPrefixOfDigits(d[1..], rest);
    } else {
      assert d + rest == rest;
    }
  }

  /** Doubles hold every integer below 2^53 exactly; `parseInt` rounds larger values. */
  const MaxExactInteger: nat := 9_007_199_254_740_992

  /**
   * `rest` cannot turn a "0" in front of it into the `0x` prefix that
   * `parseInt` reads as hexadecimal.
   */
  predicate NoHexPrefix(n: nat, rest: string) {
    n != 0 || rest == [] || (rest[0] != 'x' && rest[0] != 'X')
  }

  /**
   * `parseInt(String(n) + rest) == n` whenever `rest` does not continue the
   * digits, does not form a hexadecimal prefix, and `n` is exact as a double.
   */
  lemma ParseShow(n: nat, rest: string)
    requires rest == [] || !IsDigit(rest[0])
    requires NoHexPrefix(n, rest)
    requires n < MaxExactInteger
    ensures ParseInt(ShowNat(n) + rest) == Some(n)
  {
    DigitPrefixOfDigits(ShowNat(n), rest);
    ShowNatValue(n);
  }

  /**
   * What a `new Date(ms).toLocaleDateString()` cell shows, up to the locale:
   * nothing at all, "Invalid Date", or the day holding epoch time `ms`.
   */
  datatype DateLabel = Blank | InvalidDate | DateAt(epochMillis: nat)

  /** The largest time value a JavaScript `Date` accepts (section 21.4.1.31 of ECMA-262, TimeClip). */
  const MaxEpochMillis: nat := 8_640_000_000_000_000

  const MillisPerSecond: nat := 1000

  /**
   * `new Date(parseInt(text) * 1000)`: `text` holds Unix seconds. An absent
   * field reaches `parseInt` as `undefined` and yields NaN, as non-numeric
   * text does.
   */
  function DateFromSeconds(text: Option<string>): (d: DateLabel)
    ensures d != Blank
    ensures d.DateAt? ==> d.epochMillis % MillisPerSecond == 0 && d.epochMillis <= MaxEpochMillis
    ensures d.DateAt? <==> text.Some? && ParseInt(text.value).Some?
                           && ParseInt(text.value).value * MillisPerSecond <= MaxEpochMillis
    ensures d.DateAt? ==> d.epochMillis == ParseInt(text.value).value * MillisPerSecond
  {
    match text
    case None => InvalidDate
    case Some(t) =>
      match ParseInt(t)
      case None => InvalidDate
      case Some(seconds) =>
        var millis := seconds * MillisPerSecond;
        if millis <= MaxEpochMillis then DateAt(millis) else InvalidDate
  }

  /**
   * Seconds written in decimal become that many thousand milliseconds, also
   * when a fraction or other non-digit text follows (as in "1700000000.5").
   */
  lemma DateOfShownSeconds(n: nat, rest: string)
    requires rest == [] || !IsDigit(rest[0])
    requires NoHexPrefix(n, rest)
    requires n * MillisPerSecond <= MaxEpochMillis
    ensures DateFromSeconds(Some(ShowNat(n) + rest)) == DateAt(n * MillisPerSecond)
  {
    ParseShow(n, rest);
  }

  /**
   * Empty text, or text that starts with a letter, gives "Invalid Date":
   * `parseInt` finds no number there. Text starting with whitespace or a
   * sign is not covered, since `parseInt` skips or reads those.
   */
  lemma DateOfNonNumeric(t: string)
    requires t == [] || 'a' <= t[0] <= 'z' || 'A' <= t[0] <= 'Z'
    ensures DateFromSeconds(Some(t)) == InvalidDate
  {
  }
}

=== FILE: text.dfy ===
/**
 * The few JavaScript string operations the widgets use: `startsWith`,
 * `endsWith`, `includes` and an ASCII-only `toLowerCase`.
 */
module Text {

  predicate StartsWith(s: string, prefix: string) {
    |prefix| <= |s| && s[..|prefix|] == prefix
  }

  predicate EndsWith(s: string, suffix: string) {
    |suffix| <= |s| && s[|s| - |suffix|..] == suffix
  }

  lemma EndsWithAppend(s: string, suffix: string)
    ensures EndsWith(s + suffix, suffix)
  {
  }

  lemma StartsWithAppend(s: string, t: string)
    ensures StartsWith(s + t, s)
  {
  }

  /** `needle` sits in `hay` at position `i`. */
  predicate OccursAt(hay: string, needle: string, i: nat) {
    i + |needle| <= |hay| && hay[i..i + |needle|] == needle
  }

  /** The reference meaning of substring containment. */
  ghost predicate Occurs(hay: string, needle: string) {
    exists i: nat :: OccursAt(hay, needle, i)
  }

  lemma OccursAtShift(hay: string, needle: string, i: nat)
    requires hay != []
    ensures OccursAt(hay, needle, i + 1) <==> OccursAt(hay[1..], needle, i)
  {
  }

  lemma OccursAtZero(hay: string, needle: string)
    ensures OccursAt(hay, needle, 0) <==> StartsWith(hay, needle)
  {
  }

  /** Only the empty needle occurs in the empty string. */
  lemma NoOccurrenceInEmpty(needle: string)
    requires needle != []
    ensures !Occurs([], needle)
  {
    forall i: nat
      ensures !OccursAt([], needle, i)
    {
    }
  }

  /** When `needle` is not at the front, it occurs in `hay` iff it occurs in the rest. */
  lemma OccursInTail(hay: string, needle: string)
    requires hay != [] && !StartsWith(hay, needle)
    ensures Occurs(hay, needle) <==> Occurs(hay[1..], needle)
  {
    OccursAtZero(hay, needle);
    forall i: nat
      ensures OccursAt(hay, needle, i + 1) <==> OccursAt(hay[1..], needle, i)
    {
      OccursAtShift(hay, needle, i);
    }
    if Occurs(hay, needle) {
      var i: nat :| OccursAt(hay, needle, i);
      assert OccursAt(hay[1..], needle, i - 1);
    }
  }

  /**
   * `String.prototype.includes`: scan `hay` left to right for `needle`; it
   * answers true exactly when `needle` occurs somewhere in `hay`.
   */
  function Includes(hay: string, needle: string): (r: bool)
    ensures r <==> Occurs(hay, needle)
    decreases |hay|
  {
    if StartsWith(hay, needle) then
      OccursAtZero(hay, needle);
      true
    else if hay == [] then
      NoOccurrenceInEmpty(needle);
      false
    else
      OccursInTail(hay, needle);
      Includes(hay[1..], needle)
  }

  /** Every string includes the empty string. */
  lemma IncludesEmpty(hay: string)
    ensures Includes(hay, "")
  {
  }

  predicate IsUpper(c: char) {
    'A' <= c <= 'Z'
  }

  /** `toLowerCase` restricted to ASCII: only 'A'..'Z' change. */
  function LowerChar(c: char): char {
    if IsUpper(c) then (c as int + 32) as char else c
  }

  function Lower(s: string): (r: string)
    ensures |r| == |s|
    ensures forall i :: 0 <= i < |s| ==> r[i] == LowerChar(s[i])
  {
    seq(|s|, i requires 0 <= i < |s| => LowerChar(s[i]))
  }

  /** Lower-casing leaves no upper-case letter behind, so it is idempotent. */
  lemma LowerIdempotent(s: string)
    ensures forall i :: 0 <= i < |s| ==> !IsUpper(Lower(s)[i])
    ensures Lower(Lower(s)) == Lower(s)
  {
  }
}

=== FILE: wrappers.dfy ===
/** Optional values, standing in for JavaScript's `undefined`/`null` fields. */
module Wrappers {

  datatype Option<+T> = None | Some(value: T) {

    /** The value when present, `default` otherwise. */
    function GetOr(default: T): T {
      match this
      case Some(v) => v
      case None => default
    }
  }
}
